=== FILE: README.md ===
# Catalog store slice of the music-streaming client, in Dafny

This project models the catalog store slice of the music-streaming client. The slice is the
`launch` slice in `redux/apiSlice.tsx`. The model has three parts:

- **The reducer as a state machine.** `Store.Step(state, action)` is a pure transition over the
  slice state `LaunchState` (initial value `Store.Initial`). The actions are:
  - the `pending`, `fulfilled` and `rejected` phase of each of the ten async thunks;
  - the nine synchronous mutators;
  - any foreign action.

  Only four thunks have reducer cases: `fetchLaunchData`, `fetchDetails`, `fetchOtherDetails` and
  `fetchTopSearch`. They share the two scalars `loading` and `error`. `fetchOtherDetails.fulfilled`
  shallow-merges its payload into `Details` with object-spread semantics.
- **Request strings.** These cover:
  - the language qualifier resolved from the stored `selectedLanguages` setting;
  - the request URL `BASE_URL + endpoint + "&language=" + encodeURIComponent(lang)`;
  - every thunk's endpoint template, including the three radio variants and the per-song media URL choice.
- **Response unwrapping.** `fetchSingleSongDetails` looks up `data[id || ""]`. `fetchAudioDetails`
  makes one media request per song and keeps the responses in song order (`Promise.all`).

Values typed `any` in the source are `JsValue.Json`, which covers `undefined`, `null`, booleans,
integral numbers, strings, arrays and objects. The parts of JavaScript the slice depends on are
written out:
- truthiness;
- `typeof`;
- the own entries an object spread copies (an array or a string spreads its elements under index keys);
- property reads;
- `Array.prototype.join`'s element conversion.

`encodeURIComponent` is modelled in full as the ECMAScript standard defines it:
- A–Z, a–z, 0–9 and `- _ . ! ~ * ' ( )` stay as they are;
- every other character becomes the UTF-8 octets of its code point (RFC 3629);
- each octet is written as `%` plus two upper-case hex digits.

A strict decoder (`Uri.DecodeUriComponent`) serves as its proved inverse.

Module layout: `Wrappers` (Option/Result), `Text` (decimal rendering, join, split), `JsValue`,
`Uri`, `Client` (settings, URL, endpoints), `Store` (state, actions, reducer), `StoreLemmas`
(properties of the reducer), `Thunks` (thunk bodies with the network as a parameter, and their
lifecycles).

Field names of `LaunchState` are the source's names in lower camel case (`Details` is `details`,
`AudioQueue` is `audioQueue`, `RadioSongs` is `radioSongs`, `StationId` is `stationId`).

Three behaviours of the code are worth noting:
- Malformed stored JSON, or a parsed value that is not an array, gives `"English"` alone, not the
  default pair. This is `Client.FallbackWhenUnusable`.
- The radio variants are chosen by JavaScript truthiness, so an empty string counts as "not given".
  An absent name in the fallback variant is sent as the text `undefined`.
- Merging the same auxiliary payload twice is not always idempotent. When `Details` was not an
  object and the payload is an array, the first arrival stores the array. The second arrival
  spreads it into an index-keyed object. `StoreLemmas.MergeNotIdempotentForArrayPayload` exhibits
  this for every array payload; `StoreLemmas.MergeIdempotent` proves idempotence in every other case, and
  `StoreLemmas.MergeIdempotentIff` joins the two.

## Model

| member | source | states |
|---|---|---|
| Store.Initial | redux/apiSlice.tsx:68-83 | the starting state: every data field null except `currentSongIndex` (an empty object) and `AudioQueue` (empty), not a radio, not loading, no error |
| Store.Step | redux/apiSlice.tsx:137-227 | every action changes only the fields in its footprint (`Store.Footprint`); every other field of the state is left as it was |
| Store.MergeDetails | redux/apiSlice.tsx:200-208 | when the current details are a non-null object or array, the result is an object whose keys are the old keys plus the payload's keys, payload values win, old values are kept for keys the payload lacks; otherwise the payload replaces the details |
| Store.ErrorMessage | redux/apiSlice.tsx:179-182 | the stored error is the rejection message exactly when that message is present and non-empty, otherwise `null` |
| StoreLemmas.PendingEffect | redux/apiSlice.tsx:171-174 | a handled `pending` (also lines 183-186, 196-199, 214-217) sets `loading`, clears `error`, and changes no data field |
| StoreLemmas.RejectedEffect | redux/apiSlice.tsx:179-182 | a handled `rejected` (also lines 191-194, 209-212, 222-225) clears `loading`, stores a non-empty message or `null`, and changes no data field |
| StoreLemmas.FulfilledReplaceEffect | redux/apiSlice.tsx:175-178 | `fulfilled` of `fetchLaunchData`, `fetchDetails` (187-190) and `fetchTopSearch` (218-221) clears `loading` and replaces exactly its target field with the payload; `error` and the rest are untouched |
| StoreLemmas.FulfilledMergeEffect | redux/apiSlice.tsx:200-208 | `fetchOtherDetails.fulfilled` clears `loading`, merges into object details, replaces non-object details by the payload, and touches nothing else |
| StoreLemmas.ClearEffects | redux/apiSlice.tsx:141-152 | the four clear mutators set `Details`, `SingleAlbumDetails`, `RadioSongs` to null and `AudioQueue` to empty, each changing only that field |
| StoreLemmas.UpdateEffects | redux/apiSlice.tsx:153-167 | the five update mutators set their one field to the payload and change nothing else |
| StoreLemmas.NoCaseNoChange | redux/apiSlice.tsx:169-225 | the actions that write nothing are exactly the lifecycle actions of thunks without cases and foreign actions, and they leave the state identical |
| StoreLemmas.MergeIdempotent | redux/apiSlice.tsx:203-207 | receiving the same auxiliary payload twice equals receiving it once, when the details were an object or the payload is not an array |
| StoreLemmas.MergeNotIdempotentForArrayPayload | redux/apiSlice.tsx:203-207 | from any state whose details are not an object, every array payload received twice gives a different state than received once |
| StoreLemmas.MergeIdempotentIff | redux/apiSlice.tsx:203-207 | receiving an auxiliary payload twice equals receiving it once exactly when the details were an object or the payload is not an array |
| StoreLemmas.MergeCommutes | redux/apiSlice.tsx:203-206 | two auxiliary payloads with disjoint keys give the same state in either arrival order, when the details are an object or both payloads are objects |
| StoreLemmas.ClearThenMergeReplaces | redux/apiSlice.tsx:141-143 | after `clearDetailsData`, an auxiliary payload becomes the details as it is |
| StoreLemmas.DetailsKeysOnlyGrow | redux/apiSlice.tsx:200-208 | while no action replaces or clears them, object details stay an object and never lose a key, over any sequence of actions |
| StoreLemmas.StepWrites | redux/apiSlice.tsx:141-225 | for each action and field it writes (except the merge), the reducer writes the value the independent table `WrittenValue` gives |
| StoreLemmas.RunLastWrite | redux/apiSlice.tsx:137-227 | after any sequence of actions, every field other than the details holds what the last action writing it wrote, or its starting value |
| StoreLemmas.PendingThenFulfilled | redux/apiSlice.tsx:171-178 | `pending` then `fulfilled` of a replace-style thunk, from any state, leaves `loading` false, `error` null, the target holding the payload, and all else unchanged |
| StoreLemmas.RejectedLaunchFromInitial | redux/apiSlice.tsx:68-83 | a failed launch fetch from the initial state leaves `launchData` null, `loading` false and the error set from the message |
| StoreLemmas.LoadingIffLatestIsPending | redux/apiSlice.tsx:171-225 | from the initial state, `loading` holds exactly when some handled fetch went pending and no handled lifecycle action came after it |
| Client.ResolveLanguage | redux/apiSlice.tsx:8-16 | the language is the default pair, the fallback, or, for a stored array, the array's elements rendered as `join` renders them and joined with ","; nothing else |
| Client.DefaultLanguagesWhenAbsent | redux/apiSlice.tsx:10-11 | nothing stored, or an empty string stored, gives "English,tamil", which splits into English and tamil |
| Client.LanguagesFromStoredArray | redux/apiSlice.tsx:11 | a stored array of names gives the names joined with "," in order, and splitting on "," returns them when none contains a comma |
| Client.LanguagesFromSplit | redux/apiSlice.tsx:11 | any language string stored as the array of its comma-separated names resolves back to the same string |
| Client.FallbackWhenUnusable | redux/apiSlice.tsx:12-15 | a failed read, malformed JSON, or a non-array value gives "English" |
| Client.RequestUrl | redux/apiSlice.tsx:19-21 | every request URL starts with the base URL and is longer than base plus endpoint |
| Client.UrlCarriesEndpoint | redux/apiSlice.tsx:21 | for every endpoint and language, what lies between the base URL and the URL's last `&` is the endpoint verbatim, even when the endpoint holds `&` itself |
| Client.RequestUrlInjective | redux/apiSlice.tsx:21 | two request URLs are equal exactly when their endpoints and their languages are equal |
| Client.UrlCarriesLanguage | redux/apiSlice.tsx:20-21 | for every endpoint, the parameter after the URL's last `&` is `language=` followed by a value that decodes to the resolved language |
| Client.DefaultLanguageSuffix | redux/apiSlice.tsx:5-21 | with nothing stored, or an empty string stored, the URL is the base URL, the endpoint, and `&language=English%2Ctamil` |
| Client.Endpoint | redux/apiSlice.tsx:86-134 | every request's endpoint starts with the fixed route of its thunk's template (the independent table `Client.Route`), and the launch and top-search endpoints are exactly `?` and `topsearch?` |
| Client.RadioEndpoint | redux/apiSlice.tsx:126-130 | every radio variant's endpoint starts with `radioNew?` |
| Client.RadioEndpointCarriesParams | redux/apiSlice.tsx:126-130 | the station variant is `radioNew?query=` followed by the id; the other two start `radioNew?name=`, and the rest splits on `&` into the name and `l=` plus the language, or into the name alone (`undefined` when absent), for names and languages without `&` |
| Client.SelectRadioQuery | redux/apiSlice.tsx:126-130 | the station variant is chosen iff the id is given and neither name nor language is; the name-and-language variant iff the id is not given and both are; otherwise the name variant |
| Client.RadioByStationIff | redux/apiSlice.tsx:126-130 | the radio endpoint starts with `radioNew?query=` exactly when the id is given and neither name nor language is |
| Client.RadioUndefinedName | redux/apiSlice.tsx:129 | with no name in the fallback variant, the endpoint is `radioNew?name=undefined` |
| Client.EndpointSegments | redux/apiSlice.tsx:98-134 | the details, other-details, album, song, media and more-radio endpoints split on "/" into the template name and the parameters, when no parameter contains "/" |
| Client.AutocompleteCarriesQuery | redux/apiSlice.tsx:90-92 | the search endpoint is `search?q=` followed by an encoding that decodes to the query |
| Client.MediaKey | redux/apiSlice.tsx:119-120 | the media URL is the nested one when non-empty, else the direct one when non-empty, else "" |
| Client.MediaEndpointCarriesKey | redux/apiSlice.tsx:120 | a media endpoint splits into `mediaURL`, the song id and the encoded media URL, which decodes to the chosen URL |
| Thunks.FetchFromApi | redux/apiSlice.tsx:19-25 | the response of a request is what the URL built from the endpoint and the language resolved from the setting answers |
| Thunks.RunRequest | redux/apiSlice.tsx:19-25 | a plain thunk succeeds exactly when the request does, with the response data, and otherwise fails with its message |
| Thunks.RunSingleSong | redux/apiSlice.tsx:112-115 | the song thunk yields the table entry at the id (or at "" without an id), `undefined` for a missing entry, and rejects on a failed request or null data |
| Thunks.SongKeyOfFalsyId | redux/apiSlice.tsx:114 | an absent id and an empty id both select the entry at "" |
| Thunks.AudioEndpoints | redux/apiSlice.tsx:117-122 | there is one media endpoint per song, and the i-th is built from the i-th song's id and media URL |
| Thunks.Gather | redux/apiSlice.tsx:118-123 | the gathered result succeeds iff every response does, with every datum in order; a failure carries one of the failed responses' messages |
| Thunks.RunAudioDetails | redux/apiSlice.tsx:117-124 | the audio thunk succeeds iff every song's media request does, its i-th result is the i-th song's response, and a failure carries one failed song's message |
| Thunks.ReplaceLifecycle | redux/apiSlice.tsx:171-194 | a replace-style thunk's pending and settlement leave the store idle, with the result in the target field, or with the failure's message and the target untouched |
| Thunks.ReplaceFetchEndToEnd | redux/apiSlice.tsx:86-102 | fetching launch data, top searches or details stores exactly what the request URL answered, or the answer's failure message |
| Thunks.UnhandledThunksLeaveStore | redux/apiSlice.tsx:169-225 | a whole lifecycle of a thunk without reducer cases leaves the store unchanged, whatever its outcome |
| Uri.EncodeUriComponent | redux/apiSlice.tsx:20 | the encoding is never shorter than its input and uses only the characters `encodeURIComponent` leaves unescaped and `%` |
| Uri.EncodeDecode | redux/apiSlice.tsx:20 | decoding the encoding of any string gives the string back |
| JsValue.ObjectValueCases | redux/apiSlice.tsx:203 | the guard `Details && typeof Details === 'object'` holds exactly for arrays and objects, and not for null |
| JsValue.OwnEntries | redux/apiSlice.tsx:204 | the entries a spread copies: an object's own fields; an array's elements and a string's one-character strings under exactly the decimal index keys below the length; nothing for other values |
| JsValue.Read | redux/apiSlice.tsx:114 | reading a property throws exactly on undefined and null, returns the own entry when present, and gives undefined for a key an object lacks |
| JsValue.JoinStrings | redux/apiSlice.tsx:11 | joining an array of strings joins the strings themselves with "," |

## Left out

- Network and storage I/O. `axios.get` is the parameter `get` (a URL to a response). `AsyncStorage.getItem` and `JSON.parse` together are the input `Client.StoredSetting`. The model does not check that the stored text and its parse agree.
- Asynchrony. `createAsyncThunk` and `Promise.all` scheduling are not modelled. Each lifecycle phase is a discrete action, and any interleaving of the shared `loading`/`error` is a sequence of actions.
- Thunks.Gather: which failure `Promise.all` reports depends on timing. The model reports the first failing song in input order, and the contract promises only one of the failures.
- Thunks.RunAudioDetails: each media request reads the stored setting on its own. The model uses one setting for all of them.
- Thunks.RunSingleSong: the text of the TypeError thrown on null data is not modelled. No reducer case reads it.
- Logging (`console.log`, `console.error`).
- JsValue.Json: object key order is not modelled. A JavaScript object keeps insertion order, so `{...Details, ...payload}` keeps the old keys first and appends new payload keys after them. A map has no order, so the model promises which keys and values the result has, not their order.
- JsValue.Json: numbers are integers. Floating point, `NaN` and exponent rendering are not modelled.
- JsValue.OwnEntries: string index keys count Unicode code points, not UTF-16 code units as JavaScript does, so a string with characters outside the Basic Multilingual Plane spreads into fewer entries than in JavaScript. Dafny characters are code points, and a string payload is not expected from the details endpoints.
- JsValue.Read: a string's `length` and index keys likewise count code points, not UTF-16 code units.
- JsValue.Read: inherited prototype properties (such as `toString`) are not modelled. Only own entries, plus `length` of arrays and strings, are.
- Uri.EncodeUriComponent: a lone UTF-16 surrogate makes `encodeURIComponent` throw, and Dafny characters cannot hold one, so that path is absent. `Uri.DecodeUriComponent` is the inverse for ASCII input only.
- Store.Step: the source distinguishes actions by their type string. The model distinguishes them by constructor. `Foreign` stands for any action whose type the slice has no case for.
- The store wiring (`redux/store.tsx` registers the reducer under the key `launch`), the screens and components, and the login flow. These are presentation or outside the slice.
- The details-cascade orchestration (module sorting, album-id extraction, per-id song fetches) is not part of this model. Its source is not among the files modelled.

=== FILE: client.dfy ===
/** The remote catalog client: the language qualifier read from the stored
    setting, the full request URL, and the endpoint template of every thunk. */
module Client {
  import opened Wrappers
  import opened Text
  import opened JsValue
  import Uri

  const BaseUrl: string := "https://mserver-pi.vercel.app/"

  /** Used when nothing (or an empty string) is stored. */
  const DefaultLanguages: string := "English,tamil"

  /** Used when reading or using the stored setting throws. */
  const FallbackLanguage: string := "English"

  // ---------------------------------------------------------------------
  // The stored language setting.

  /** What `JSON.parse` makes of the stored text. */
  datatype ParseResult = Unparsable | Parsed(value: Json)

  /** The "selectedLanguages" entry of local storage: the read itself can
      fail, the key can be missing, or it holds a text and its parse. */
  datatype StoredSetting =
    | ReadFailed
    | NotStored
    | Stored(text: string, parsed: ParseResult)

  /** The language qualifier for every request: the default pair when
      nothing (or an empty string) is stored, the stored array joined with "," when it is
      an array, and the single fallback when reading the setting fails or
      parsing or joining throws. */
  function ResolveLanguage(setting: StoredSetting): (lang: string)
    ensures lang == DefaultLanguages || lang == FallbackLanguage ||
      (setting.Stored? && setting.parsed.Parsed? && setting.parsed.value.JArr? &&
       lang == Join(ElementStrings(setting.parsed.value.items), ","))
  {
    match setting
    case ReadFailed => FallbackLanguage
    case NotStored => DefaultLanguages
    case Stored(text, parsed) =>
      if text == "" then DefaultLanguages
      else
        match parsed
        case Unparsable => FallbackLanguage
        case Parsed(v) => if v.JArr? then ToJsString(v) else FallbackLanguage
  }

  /** Nothing stored, or an empty string stored, gives "English,tamil", the
      two languages English and tamil. */
  lemma DefaultLanguagesWhenAbsent(setting: StoredSetting)
    requires setting.NotStored? || (setting.Stored? && setting.text == "")
    ensures ResolveLanguage(setting) == "English,tamil"
    ensures Split(ResolveLanguage(setting), ',') == ["English", "tamil"]
  {
    SplitDefaultLanguages();
  }

  /** The default pair splits into its two names. */
  lemma SplitDefaultLanguages()
    ensures Split("English,tamil", ',') == ["English", "tamil"]
  {
    SplitJoin(["English", "tamil"], ',');
    assert Join(["English", "tamil"], [',']) == "English,tamil";
  }

  /** A stored array resolves to its string conversion, `join(",")`. */
  lemma ResolveStoredArray(text: string, xs: seq<Json>)
    requires text != ""
    ensures ResolveLanguage(Stored(text, Parsed(JArr(xs)))) == ToJsString(JArr(xs))
  {
  }

  /** A stored array of language names yields the names joined with "," in
      order, and splitting on "," gives them back when none contains a
      comma. */
  lemma LanguagesFromStoredArray(text: string, names: seq<string>)
    requires text != ""
    ensures ResolveLanguage(Stored(text, Parsed(JArr(Strings(names))))) == Join(names, ",")
    ensures |names| >= 1 && NoneContains(names, ',') ==>
      Split(ResolveLanguage(Stored(text, Parsed(JArr(Strings(names))))), ',') == names
  {
    var v := JArr(Strings(names));
    var lang := ResolveLanguage(Stored(text, Parsed(v)));
    ResolveStoredArray(text, Strings(names));
    JoinStrings(names);
    assert lang == Join(names, ",");
    if |names| >= 1 && NoneContains(names, ',') {
      SplitJoin(names, ',');
      assert Split(lang, ',') == names;
    }
  }

  /** A language string saved as the array of its comma-separated names
      resolves back to the same string. */
  lemma LanguagesFromSplit(text: string, lang: string)
    requires text != ""
    ensures ResolveLanguage(Stored(text, Parsed(JArr(Strings(Split(lang, ',')))))) == lang
  {
    var names := Split(lang, ',');
    LanguagesFromStoredArray(text, names);
    JoinSplit(lang, ',');
    assert Join(names, ",") == Join(names, [',']);
  }

  /** A failed read, malformed JSON, or a parsed value that is not an array
      (on which `.join` throws) gives "English". */
  lemma FallbackWhenUnusable(setting: StoredSetting)
    requires setting.ReadFailed? ||
      (setting.Stored? && setting.text != "" &&
        (setting.parsed.Unparsable? || !setting.parsed.value.JArr?))
    ensures ResolveLanguage(setting) == "English"
  {
  }

  // ---------------------------------------------------------------------
  // The request URL.

  /** `${BASE_URL}${endpoint}&language=${encodeURIComponent(lang)}`. */
  function RequestUrl(endpoint: string, lang: string): (url: string)
    ensures |url| > |BaseUrl| + |endpoint| && url[..|BaseUrl|] == BaseUrl
  {
    BaseUrl + endpoint + "&language=" + Uri.EncodeUriComponent(lang)
  }

  /** Position of the last occurrence of `c` in `s`. */
  function LastIndexOf(s: string, c: char): (r: Option<nat>)
    ensures r.Some? ==> r.value < |s| && s[r.value] == c
    ensures r.Some? ==> c !in s[r.value + 1..]
    ensures r.None? ==> c !in s
  {
    if s == [] then None
    else if s[|s| - 1] == c then Some(|s| - 1)
    else
      assert s == s[..|s| - 1] + [s[|s| - 1]];
      LastIndexOf(s[..|s| - 1], c)
  }

  /** The language a request URL carries: the decoded value after the last
      `&`, which must start `language=`. */
  function LanguageParam(url: string): Option<string> {
    match LastIndexOf(url, '&')
    case None => None
    case Some(i) =>
      var q := url[i + 1..];
      if |q| >= 9 && q[..9] == "language=" then Uri.DecodeUriComponent(q[9..]) else None
  }

  lemma {:induction false} LastIndexOfBeforeSuffix(p: string, c: char, q: string)
    requires c !in q
    ensures LastIndexOf(p + [c] + q, c) == Some(|p|)
    decreases |q|
  {
    var s := p + [c] + q;
    if q == [] {
      assert s[|s| - 1] == c;
    } else {
      assert s[|s| - 1] == q[|q| - 1];
      assert s[..|s| - 1] == p + [c] + q[..|q| - 1];
      LastIndexOfBeforeSuffix(p, c, q[..|q| - 1]);
    }
  }

  /** The encoded language parameter contains no `&`, so the `&` before it
      is the last one in the URL. */
  lemma RequestUrlShape(endpoint: string, lang: string)
    ensures RequestUrl(endpoint, lang)
         == (BaseUrl + endpoint) + ['&'] + ("language=" + Uri.EncodeUriComponent(lang))
    ensures LastIndexOf(RequestUrl(endpoint, lang), '&') == Some(|BaseUrl + endpoint|)
  {
    var enc := Uri.EncodeUriComponent(lang);
    var tail := "language=" + enc;
    assert '&' !in tail by {
      forall i | 0 <= i < |tail|
        ensures tail[i] != '&'
      {
        if i >= 9 {
          assert tail[i] == enc[i - 9];
        }
      }
    }
    assert RequestUrl(endpoint, lang) == (BaseUrl + endpoint) + ['&'] + tail;
    LastIndexOfBeforeSuffix(BaseUrl + endpoint, '&', tail);
  }

  /** Every request carries exactly the resolved language: the appended
      parameter decodes back to it, whatever the endpoint. */
  lemma UrlCarriesLanguage(endpoint: string, lang: string)
    ensures LanguageParam(RequestUrl(endpoint, lang)) == Some(lang)
  {
    var enc := Uri.EncodeUriComponent(lang);
    RequestUrlShape(endpoint, lang);
    var q := RequestUrl(endpoint, lang)[|BaseUrl + endpoint| + 1..];
    assert q == "language=" + enc;
    assert q[9..] == enc;
    Uri.EncodeDecode(lang);
  }

  /** The endpoint a request URL was built from: what lies between the base
      URL and the last `&`. */
  function EndpointParam(url: string): Option<string> {
    if |url| < |BaseUrl| || url[..|BaseUrl|] != BaseUrl then None
    else
      match LastIndexOf(url, '&')
      case None => None
      case Some(i) => if i < |BaseUrl| then None else Some(url[|BaseUrl|..i])
  }

  /** Every request URL holds its endpoint verbatim between the base URL and
      the language parameter, even when the endpoint has `&` of its own. */
  lemma UrlCarriesEndpoint(endpoint: string, lang: string)
    ensures EndpointParam(RequestUrl(endpoint, lang)) == Some(endpoint)
  {
    RequestUrlShape(endpoint, lang);
    var url := RequestUrl(endpoint, lang);
    assert url[..|BaseUrl|] == BaseUrl;
    assert url[|BaseUrl|..|BaseUrl + endpoint|] == endpoint;
  }

  /** Distinct endpoint/language pairs never share a URL. */
  lemma RequestUrlInjective(e1: string, l1: string, e2: string, l2: string)
    ensures RequestUrl(e1, l1) == RequestUrl(e2, l2) <==> (e1 == e2 && l1 == l2)
  {
    UrlCarriesEndpoint(e1, l1);
    UrlCarriesEndpoint(e2, l2);
    UrlCarriesLanguage(e1, l1);
    UrlCarriesLanguage(e2, l2);
  }

  /** With nothing stored, or an empty string stored, every request ends in
      `&language=English%2Ctamil`. */
  lemma DefaultLanguageSuffix(endpoint: string, setting: StoredSetting)
    requires setting.NotStored? || (setting.Stored? && setting.text == "")
    ensures RequestUrl(endpoint, ResolveLanguage(setting))
         == BaseUrl + endpoint + "&language=" + "English%2Ctamil"
  {
    var lang := ResolveLanguage(setting);
    assert lang == "English,tamil";
    EncodeDefaultLanguages();
  }

  /** Two unreserved words around a comma encode with the comma as `%2C`. */
  lemma EncodeCommaPair(a: string, b: string)
    requires forall i :: 0 <= i < |a| ==> Uri.Unreserved(a[i])
    requires forall i :: 0 <= i < |b| ==> Uri.Unreserved(b[i])
    ensures Uri.EncodeUriComponent(a + "," + b) == a + "%2C" + b
  {
    Uri.EncodeAppend(a + ",", b);
    Uri.EncodeAppend(a, ",");
    Uri.EncodeUnreserved(a);
    Uri.EncodeComma();
    Uri.EncodeUnreserved(b);
  }

  lemma EncodeDefaultLanguages()
    ensures Uri.EncodeUriComponent("English,tamil") == "English%2Ctamil"
  {
    EncodeCommaPair("English", "tamil");
    assert "English" + "," + "tamil" == "English,tamil";
    assert "English" + "%2C" + "tamil" == "English%2Ctamil";
  }

  // ---------------------------------------------------------------------
  // Endpoint templates.

  /** `${v}` for an optional string parameter: an absent one renders as
      "undefined". */
  function Interpolate(v: Option<string>): string {
    match v
    case Some(s) => s
    case None => "undefined"
  }

  /** Truthiness of an optional string parameter. */
  predicate Given(v: Option<string>) {
    v.Some? && v.value != ""
  }

  /** The three variants of a radio station request. */
  datatype RadioQuery =
    | ByStation(id: string)
    | ByNameAndLanguage(name: string, language: string)
    | ByName(maybeName: Option<string>)

  /** `fetchRadioDetails` variant selection. */
  function SelectRadioQuery(id: string, n: Option<string>, l: Option<string>): (q: RadioQuery)
    ensures q.ByStation? <==> (id != "" && !Given(n) && !Given(l))
    ensures q.ByNameAndLanguage? <==> (id == "" && Given(n) && Given(l))
    ensures q.ByStation? ==> q.id == id
    ensures q.ByNameAndLanguage? ==> q.name == n.value && q.language == l.value
    ensures q.ByName? ==> q.maybeName == n
  {
    if id != "" && !Given(n) && !Given(l) then ByStation(id)
    else if id == "" && Given(n) && Given(l) then ByNameAndLanguage(n.value, l.value)
    else ByName(n)
  }

  /** Every catalog request a thunk can make. Parameters declared optional
      in the source are `Option`s. */
  datatype Request =
    | LaunchRequest
    | AutocompleteRequest(query: string)
    | TopSearchRequest
    | DetailsRequest(id: Option<string>, kind: Option<string>)
    | OtherDetailsRequest(title: Option<string>, source: Option<string>, data: Option<string>)
    | AlbumRequest(id: Option<string>)
    | SongRequest(id: Option<string>)
    | MediaRequest(songId: string, mediaUrl: string)
    | RadioRequest(station: string, name: Option<string>, language: Option<string>)
    | MoreRadioRequest(station: string, k: string)

  function RadioEndpoint(q: RadioQuery): (e: string)
    ensures |e| >= 9 && e[..9] == "radioNew?"
  {
    match q
    case ByStation(id) => "radioNew?query=" + id
    case ByNameAndLanguage(n, l) => "radioNew?name=" + n + "&l=" + l
    case ByName(n) => "radioNew?name=" + Interpolate(n)
  }

  /** The fixed route each kind of request starts with. */
  function Route(r: Request): string {
    match r
    case LaunchRequest => "?"
    case AutocompleteRequest(_) => "search?q="
    case TopSearchRequest => "topsearch?"
    case DetailsRequest(_, _) => "details/"
    case OtherDetailsRequest(_, _, _) => "otherDetails/"
    case AlbumRequest(_) => "album/"
    case SongRequest(_) => "song/"
    case MediaRequest(_, _) => "mediaURL/"
    case RadioRequest(_, _, _) => "radioNew?"
    case MoreRadioRequest(_, _) => "moreRadioNew/"
  }

  /** The endpoint string each request is sent to, before the base URL and
      the language parameter are added. */
  function Endpoint(r: Request): (e: string)
    ensures |e| >= |Route(r)| && e[..|Route(r)|] == Route(r)
    ensures r.LaunchRequest? || r.TopSearchRequest? ==> e == Route(r)
  {
    match r
    case LaunchRequest => "?"
    case AutocompleteRequest(query) => "search?q=" + Uri.EncodeUriComponent(query)
    case TopSearchRequest => "topsearch?"
    case DetailsRequest(id, kind) => "details/" + Interpolate(id) + "/" + Interpolate(kind)
    case OtherDetailsRequest(title, source, data) =>
      "otherDetails/" + Interpolate(title) + "/" + Interpolate(source) + "/" + Interpolate(data)
    case AlbumRequest(id) => "album/" + Interpolate(id)
    case SongRequest(id) => "song/" + Interpolate(id)
    case MediaRequest(songId, u) => "mediaURL/" + songId + "/" + Uri.EncodeUriComponent(u)
    case RadioRequest(station, n, l) => RadioEndpoint(SelectRadioQuery(station, n, l))
    case MoreRadioRequest(station, k) => "moreRadioNew/" + station + "/" + k
  }

  /** The path segments of a path-style request, as rendered. */
  function PathSegments(r: Request): seq<string>
    requires r.DetailsRequest? || r.OtherDetailsRequest? || r.AlbumRequest? ||
             r.SongRequest? || r.MediaRequest? || r.MoreRadioRequest?
  {
    match r
    case DetailsRequest(id, kind) => ["details", Interpolate(id), Interpolate(kind)]
    case OtherDetailsRequest(title, source, data) =>
      ["otherDetails", Interpolate(title), Interpolate(source), Interpolate(data)]
    case AlbumRequest(id) => ["album", Interpolate(id)]
    case SongRequest(id) => ["song", Interpolate(id)]
    case MediaRequest(songId, u) => ["mediaURL", songId, Uri.EncodeUriComponent(u)]
    case MoreRadioRequest(station, k) => ["moreRadioNew", station, k]
  }

  lemma Join2(a: string, b: string)
    ensures Join([a, b], "/") == a + "/" + b
  {
    assert [a, b][1..] == [b];
  }

  lemma Join3(a: string, b: string, c: string)
    ensures Join([a, b, c], "/") == a + "/" + b + "/" + c
  {
    assert [a, b, c][1..] == [b, c];
    Join2(b, c);
  }

  lemma Join4(a: string, b: string, c: string, d: string)
    ensures Join([a, b, c, d], "/") == a + "/" + b + "/" + c + "/" + d
  {
    assert [a, b, c, d][1..] == [b, c, d];
    Join3(b, c, d);
  }

  /** A path-style endpoint splits on "/" back into its template name and
      its parameters, provided no parameter contains "/" (the encoded media
      URL never does). */
  lemma EndpointSegments(r: Request)
    requires r.DetailsRequest? || r.OtherDetailsRequest? || r.AlbumRequest? ||
             r.SongRequest? || r.MediaRequest? || r.MoreRadioRequest?
    requires NoneContains(PathSegments(r), '/')
    ensures Split(Endpoint(r), '/') == PathSegments(r)
  {
    var segs := PathSegments(r);
    match r {
      case DetailsRequest(_, _) =>
        Join3(segs[0], segs[1], segs[2]);
        assert "details/" == "details" + "/";
      case OtherDetailsRequest(_, _, _) =>
        Join4(segs[0], segs[1], segs[2], segs[3]);
        assert "otherDetails/" == "otherDetails" + "/";
      case AlbumRequest(_) =>
        Join2(segs[0], segs[1]);
        assert "album/" == "album" + "/";
      case SongRequest(_) =>
        Join2(segs[0], segs[1]);
        assert "song/" == "song" + "/";
      case MediaRequest(_, _) =>
        Join3(segs[0], segs[1], segs[2]);
        assert "mediaURL/" == "mediaURL" + "/";
      case MoreRadioRequest(_, _) =>
        Join3(segs[0], segs[1], segs[2]);
        assert "moreRadioNew/" == "moreRadioNew" + "/";
    }
    assert Endpoint(r) == Join(segs, "/");
    SplitJoin(segs, '/');
  }

  /** The search query is carried percent-encoded and decodes back. */
  lemma AutocompleteCarriesQuery(query: string)
    ensures Endpoint(AutocompleteRequest(query))[..9] == "search?q="
    ensures Uri.DecodeUriComponent(Endpoint(AutocompleteRequest(query))[9..]) == Some(query)
  {
    Uri.EncodeDecode(query);
  }

  /** A radio request asks by station exactly when the station id is given
      and neither name nor language is. */
  lemma RadioByStationIff(station: string, n: Option<string>, l: Option<string>)
    ensures (|Endpoint(RadioRequest(station, n, l))| >= 15 &&
             Endpoint(RadioRequest(station, n, l))[..15] == "radioNew?query=")
        <==> (station != "" && !Given(n) && !Given(l))
  {
    var e := Endpoint(RadioRequest(station, n, l));
    if !(station != "" && !Given(n) && !Given(l)) {
      assert e[..14] == "radioNew?name=";
      assert e[9] == 'n';
    }
  }

  /** Each radio variant's parameters can be read back from its endpoint:
      the station id after `radioNew?query=`, otherwise the name (and the
      language after `&l=`) after `radioNew?name=`. */
  lemma RadioEndpointCarriesParams(station: string, n: Option<string>, l: Option<string>)
    requires n.Some? ==> '&' !in n.value
    requires l.Some? ==> '&' !in l.value
    ensures var e := Endpoint(RadioRequest(station, n, l));
      && (station != "" && !Given(n) && !Given(l) ==>
            |e| >= 15 && e[..15] == "radioNew?query=" && e[15..] == station)
      && (!(station != "" && !Given(n) && !Given(l)) ==>
            |e| >= 14 && e[..14] == "radioNew?name=")
      && (station == "" && Given(n) && Given(l) ==>
            Split(e[14..], '&') == [n.value, "l=" + l.value])
      && (!(station != "" && !Given(n) && !Given(l)) && !(station == "" && Given(n) && Given(l)) ==>
            Split(e[14..], '&') == [Interpolate(n)])
  {
    var e := Endpoint(RadioRequest(station, n, l));
    if station != "" && !Given(n) && !Given(l) {
      assert e == "radioNew?query=" + station;
    } else if station == "" && Given(n) && Given(l) {
      var name := n.value;
      var rest := "l=" + l.value;
      assert e == "radioNew?name=" + (name + "&" + rest);
      assert e[14..] == name + "&" + rest;
      assert '&' !in rest by {
        forall i | 0 <= i < |rest| ensures rest[i] != '&' {
          if i >= 2 { assert rest[i] == l.value[i - 2]; }
        }
      }
      assert [name, rest][1..] == [rest];
      assert Join([name, rest], "&") == name + "&" + rest;
      SplitJoin([name, rest], '&');
    } else {
      var name := Interpolate(n);
      assert e == "radioNew?name=" + name;
      assert e[14..] == name;
      assert '&' !in name by {
        if n.None? {
          assert name == "undefined";
        }
      }
      assert Join([name], "&") == name;
      SplitJoin([name], '&');
    }
  }

  /** With no name given, the fallback variant sends the literal
      "undefined" as the name. */
  lemma RadioUndefinedName(station: string, l: Option<string>)
    requires station == "" || Given(l)
    ensures Endpoint(RadioRequest(station, None, l)) == "radioNew?name=undefined"
  {
  }

  // ---------------------------------------------------------------------
  // Media URL choice for one song.

  datatype UrlId = UrlId(encryptedMediaUrl: Option<string>)

  /** The fields of a song `fetchAudioDetails` reads. */
  datatype SongDetails = SongDetails(id: string, encryptedMediaUrl: Option<string>, urlid: Option<UrlId>)

  function NestedMediaUrl(song: SongDetails): Option<string> {
    match song.urlid
    case Some(u) => u.encryptedMediaUrl
    case None => None
  }

  /** `urlid?.encrypted_media_url || encrypted_media_url || ''`: the first
      non-empty of the nested and the direct media URL, else "". */
  function MediaKey(song: SongDetails): (u: string)
    ensures Given(NestedMediaUrl(song)) ==> u == NestedMediaUrl(song).value
    ensures !Given(NestedMediaUrl(song)) && Given(song.encryptedMediaUrl) ==> u == song.encryptedMediaUrl.value
    ensures u == "" <==> !Given(NestedMediaUrl(song)) && !Given(song.encryptedMediaUrl)
  {
    var nested := NestedMediaUrl(song);
    if Given(nested) then nested.value
    else if Given(song.encryptedMediaUrl) then song.encryptedMediaUrl.value
    else ""
  }

  function MediaEndpoint(song: SongDetails): string {
    Endpoint(MediaRequest(song.id, MediaKey(song)))
  }

  /** The media URL travels encoded as the last path segment and decodes
      back to the chosen one. */
  lemma MediaEndpointCarriesKey(song: SongDetails)
    requires '/' !in song.id
    ensures Split(MediaEndpoint(song), '/') == ["mediaURL", song.id, Uri.EncodeUriComponent(MediaKey(song))]
    ensures Split(MediaEndpoint(song), '/')[2] == Uri.EncodeUriComponent(MediaKey(song))
    ensures Uri.DecodeUriComponent(Split(MediaEndpoint(song), '/')[2]) == Some(MediaKey(song))
  {
    var r := MediaRequest(song.id, MediaKey(song));
    var enc := Uri.EncodeUriComponent(MediaKey(song));
    assert '/' !in enc by {
      forall i | 0 <= i < |enc| ensures enc[i] != '/' {}
    }
    assert forall i :: 0 <= i < |"mediaURL"| ==> "mediaURL"[i] != '/';
    EndpointSegments(r);
    Uri.EncodeDecode(MediaKey(song));
  }
}

=== FILE: json.dfy ===
/** The JavaScript values the catalog store holds and the API returns, with
    the few language rules the store relies on: truthiness, `typeof`, the own
    enumerable entries an object spread copies, property reads, and the string
    conversion `Array.prototype.join` applies to elements. */
module JsValue {
  import opened Wrappers
  import opened Text

  /** A JavaScript value as decoded JSON can produce it, plus `undefined`.
      Numbers are integral. */
  datatype Json =
    | JUndefined
    | JNull
    | JBool(b: bool)
    | JNum(n: int)
    | JStr(s: string)
    | JArr(items: seq<Json>)
    | JObj(fields: map<string, Json>)

  /** The result of the `typeof` operator. */
  function TypeOf(v: Json): string {
    match v
    case JUndefined => "undefined"
    case JBool(_) => "boolean"
    case JNum(_) => "number"
    case JStr(_) => "string"
    case _ => "object"
  }

  /** JavaScript truthiness: `undefined`, `null`, `false`, `0` and `""` are
      falsy, everything else is truthy. */
  predicate Truthy(v: Json) {
    match v
    case JUndefined => false
    case JNull => false
    case JBool(b) => b
    case JNum(n) => n != 0
    case JStr(s) => s != ""
    case _ => true
  }

  /** The guard `v && typeof v === 'object'`. */
  predicate IsObjectValue(v: Json) {
    Truthy(v) && TypeOf(v) == "object"
  }

  /** The guard holds exactly for arrays and plain objects: `null` has type
      "object" but is falsy. */
  lemma ObjectValueCases(v: Json)
    ensures IsObjectValue(v) <==> (v.JArr? || v.JObj?)
    ensures TypeOf(JNull) == "object" && !IsObjectValue(JNull)
  {
  }

  /** Entries keyed by array index ("0", "1", ...), as an array or a string
      exposes its elements. */
  function IndexedEntries(xs: seq<Json>): (m: map<string, Json>)
    ensures forall i :: 0 <= i < |xs| ==> NatToString(i) in m && m[NatToString(i)] == xs[i]
    ensures forall k :: k in m ==> exists i :: 0 <= i < |xs| && k == NatToString(i)
  {
    NatToStringInjective();
    map i | 0 <= i < |xs| :: NatToString(i) := xs[i]
  }

  /** The one-character strings a string value is made of. */
  function CharValues(s: string): (r: seq<Json>)
    ensures |r| == |s|
    ensures forall i :: 0 <= i < |s| ==> r[i] == JStr([s[i]])
  {
    seq(|s|, i requires 0 <= i < |s| => JStr([s[i]]))
  }

  /** A string's one-character strings under their index keys, and no
      other key. */
  function StringEntries(s: string): (m: map<string, Json>)
    ensures forall i :: 0 <= i < |s| ==> NatToString(i) in m && m[NatToString(i)] == JStr([s[i]])
    ensures forall k :: k in m ==> exists i :: 0 <= i < |s| && k == NatToString(i)
  {
    var cs := CharValues(s);
    IndexedEntries(cs)
  }

  /** The own enumerable string-keyed entries that `{...v}` copies: an
      object's fields, an array's or a string's elements under their index
      keys, and nothing for `undefined`, `null`, booleans and numbers. */
  function OwnEntries(v: Json): (m: map<string, Json>)
    ensures !(v.JObj? || v.JArr? || v.JStr?) ==> m == map[]
    ensures v.JObj? ==> m == v.fields
    ensures v.JArr? ==> forall i :: 0 <= i < |v.items| ==>
      NatToString(i) in m && m[NatToString(i)] == v.items[i]
    ensures v.JStr? ==> forall i :: 0 <= i < |v.s| ==>
      NatToString(i) in m && m[NatToString(i)] == JStr([v.s[i]])
    ensures (v.JArr? || v.JStr?) ==> forall k :: k in m ==> IsDigits(k)
    ensures v.JArr? ==> forall k :: k in m ==> exists i :: 0 <= i < |v.items| && k == NatToString(i)
    ensures v.JStr? ==> forall k :: k in m ==> exists i :: 0 <= i < |v.s| && k == NatToString(i)
  {
    match v
    case JObj(fields) => fields
    case JArr(xs) =>
      var r := IndexedEntries(xs);
      r
    case JStr(s) => StringEntries(s)
    case _ => map[]
  }

  /** The property read `v[key]`. `None` stands for the TypeError thrown when
      `v` is `undefined` or `null`; a key that is not present reads as
      `undefined`. Arrays and strings also answer "length". */
  function Read(v: Json, key: string): (r: Option<Json>)
    ensures r.None? <==> (v.JUndefined? || v.JNull?)
    ensures r.Some? && key in OwnEntries(v) ==> r.value == OwnEntries(v)[key]
    ensures v.JObj? && key !in v.fields ==> r == Some(JUndefined)
  {
    match v
    case JUndefined => None
    case JNull => None
    case JArr(xs) =>
      if key == "length" then Some(JNum(|xs|))
      else if key in OwnEntries(v) then Some(OwnEntries(v)[key]) else Some(JUndefined)
    case JStr(s) =>
      if key == "length" then Some(JNum(|s|))
      else if key in OwnEntries(v) then Some(OwnEntries(v)[key]) else Some(JUndefined)
    case _ =>
      if key in OwnEntries(v) then Some(OwnEntries(v)[key]) else Some(JUndefined)
  }

  /** The string conversion `String(v)`; an array converts as
      `v.join(",")`, where `undefined` and `null` elements become "". */
  function ToJsString(v: Json): string
    decreases v, 2
  {
    match v
    case JUndefined => "undefined"
    case JNull => "null"
    case JBool(b) => if b then "true" else "false"
    case JNum(n) => IntToString(n)
    case JStr(s) => s
    case JArr(xs) => Join(ElementStrings(xs), ",")
    case JObj(_) => "[object Object]"
  }

  /** How `join` renders each array element. */
  function ElementStrings(xs: seq<Json>): (r: seq<string>)
    ensures |r| == |xs|
    ensures forall i :: 0 <= i < |xs| && xs[i].JStr? ==> r[i] == xs[i].s
    ensures forall i :: 0 <= i < |xs| && (xs[i].JUndefined? || xs[i].JNull?) ==> r[i] == ""
    decreases JArr(xs), 1
  {
    seq(|xs|, i requires 0 <= i < |xs| =>
          if xs[i].JUndefined? || xs[i].JNull? then "" else ToJsString(xs[i]))
  }

  /** JSON strings as array elements. */
  function Strings(xs: seq<string>): (r: seq<Json>)
    ensures |r| == |xs|
    ensures forall i :: 0 <= i < |xs| ==> r[i] == JStr(xs[i])
  {
    seq(|xs|, i requires 0 <= i < |xs| => JStr(xs[i]))
  }

  /** Joining an array of strings joins the strings themselves. */
  lemma JoinStrings(xs: seq<string>)
    ensures ToJsString(JArr(Strings(xs))) == Join(xs, ",")
  {
    assert ElementStrings(Strings(xs)) == xs;
  }
}

=== FILE: store.dfy ===
/** The catalog store slice ("launch"): its state record, the actions its
    reducer answers, and the reducer as a pure transition function. */
module Store {
  import opened Wrappers
  import opened JsValue

  /** The slice state. Fields typed `any` in the source hold a `Json`. */
  datatype LaunchState = LaunchState(
    launchData: Json,
    autocompleteData: Json,
    details: Json,
    singleAlbumDetails: Json,
    currentSongIndex: Json,
    isRadio: bool,
    currentlyPlayingTrack: Json,
    audioQueue: seq<Json>,
    radioSongs: Json,
    playNext: Json,
    stationId: Json,
    topSearchData: Json,
    loading: bool,
    error: Option<string>)

  /** The state before any action: every data field `null`, the song index
      an empty object, the queue empty, not loading, no error. */
  const Initial: LaunchState :=
    LaunchState(
      launchData := JNull,
      autocompleteData := JNull,
      details := JNull,
      singleAlbumDetails := JNull,
      currentSongIndex := JObj(map[]),
      isRadio := false,
      currentlyPlayingTrack := JNull,
      audioQueue := [],
      radioSongs := JNull,
      playNext := JNull,
      stationId := JNull,
      topSearchData := JNull,
      loading := false,
      error := None)

  /** The slice's asynchronous thunks. */
  datatype Thunk =
    | FetchLaunchData
    | FetchAutocompleteData
    | FetchTopSearch
    | FetchDetails
    | FetchOtherDetails
    | FetchSingleAlbumDetails
    | FetchSingleSongDetails
    | FetchAudioDetails
    | FetchRadioDetails
    | FetchMoreRadioDetails

  /** Thunks whose lifecycle actions the reducer has cases for. */
  predicate HasCases(th: Thunk) {
    th == FetchLaunchData || th == FetchDetails || th == FetchOtherDetails || th == FetchTopSearch
  }

  /** Every action that can reach the reducer: the three lifecycle phases of
      each thunk, the nine synchronous mutators, and any action created
      elsewhere whose type is none of the slice's. */
  datatype Action =
    | Pending(thunk: Thunk)
    | Fulfilled(thunk: Thunk, payload: Json)
    | Rejected(thunk: Thunk, message: Option<string>)
    | ClearDetailsData
    | ClearSingleAlbumDetailsData
    | ClearAudioQueue
    | ClearRadioSongs
    | UpdateAudioQueue(queue: seq<Json>)
    | UpdateSongIndex(index: Json)
    | UpdateIsRadio(flag: bool)
    | UpdateCurrentlyPlayingTrack(track: Json)
    | UpdatePlayNext(next: Json)
    | Foreign(actionType: string)

  predicate IsLifecycle(a: Action) {
    a.Pending? || a.Fulfilled? || a.Rejected?
  }

  // ---------------------------------------------------------------------
  // Fields, so that "nothing else changes" can be stated once.

  datatype Field =
    | LaunchDataField
    | AutocompleteDataField
    | DetailsField
    | SingleAlbumDetailsField
    | CurrentSongIndexField
    | IsRadioField
    | CurrentlyPlayingTrackField
    | AudioQueueField
    | RadioSongsField
    | PlayNextField
    | StationIdField
    | TopSearchDataField
    | LoadingField
    | ErrorField

  datatype FieldValue =
    | JsonValue(json: Json)
    | QueueValue(queue: seq<Json>)
    | FlagValue(flag: bool)
    | ErrorValue(message: Option<string>)

  function Project(s: LaunchState, f: Field): FieldValue {
    match f
    case LaunchDataField => JsonValue(s.launchData)
    case AutocompleteDataField => JsonValue(s.autocompleteData)
    case DetailsField => JsonValue(s.details)
    case SingleAlbumDetailsField => JsonValue(s.singleAlbumDetails)
    case CurrentSongIndexField => JsonValue(s.currentSongIndex)
    case IsRadioField => FlagValue(s.isRadio)
    case CurrentlyPlayingTrackField => JsonValue(s.currentlyPlayingTrack)
    case AudioQueueField => QueueValue(s.audioQueue)
    case RadioSongsField => JsonValue(s.radioSongs)
    case PlayNextField => JsonValue(s.playNext)
    case StationIdField => JsonValue(s.stationId)
    case TopSearchDataField => JsonValue(s.topSearchData)
    case LoadingField => FlagValue(s.loading)
    case ErrorField => ErrorValue(s.error)
  }

  /** `s` and `t` agree on every field outside `written`. */
  predicate AgreeOutside(s: LaunchState, t: LaunchState, written: set<Field>) {
    forall f :: f !in written ==> Project(s, f) == Project(t, f)
  }

  /** The data field a handled thunk's `fulfilled` case stores into. */
  function TargetField(th: Thunk): Field
    requires HasCases(th)
  {
    match th
    case FetchLaunchData => LaunchDataField
    case FetchTopSearch => TopSearchDataField
    case _ => DetailsField
  }

  /** The fields each action may write: the reference table for `Step`. */
  function Footprint(a: Action): set<Field> {
    match a
    case Pending(th) => if HasCases(th) then {LoadingField, ErrorField} else {}
    case Fulfilled(th, _) => if HasCases(th) then {LoadingField, TargetField(th)} else {}
    case Rejected(th, _) => if HasCases(th) then {LoadingField, ErrorField} else {}
    case ClearDetailsData => {DetailsField}
    case ClearSingleAlbumDetailsData => {SingleAlbumDetailsField}
    case ClearAudioQueue => {AudioQueueField}
    case ClearRadioSongs => {RadioSongsField}
    case UpdateAudioQueue(_) => {AudioQueueField}
    case UpdateSongIndex(_) => {CurrentSongIndexField}
    case UpdateIsRadio(_) => {IsRadioField}
    case UpdateCurrentlyPlayingTrack(_) => {CurrentlyPlayingTrackField}
    case UpdatePlayNext(_) => {PlayNextField}
    case Foreign(_) => {}
  }

  // ---------------------------------------------------------------------
  // The reducer.

  /** `action.error.message || null`: an absent or empty message stores no
      error. */
  function ErrorMessage(m: Option<string>): (e: Option<string>)
    ensures e.Some? <==> (m.Some? && m.value != "")
    ensures e.Some? ==> e == m
  {
    match m
    case Some(text) => if text != "" then m else None
    case None => None
  }

  /** The `fetchOtherDetails.fulfilled` rule: when the current details are a
      non-null object (or array), the result is the object spread
      `{...current, ...payload}`; otherwise the payload replaces them. */
  function MergeDetails(current: Json, payload: Json): (r: Json)
    ensures IsObjectValue(current) ==> r.JObj?
    ensures IsObjectValue(current) ==>
      r.fields.Keys == OwnEntries(current).Keys + OwnEntries(payload).Keys
    ensures IsObjectValue(current) ==>
      forall k :: k in OwnEntries(payload) ==> r.fields[k] == OwnEntries(payload)[k]
    ensures IsObjectValue(current) ==>
      forall k :: k in OwnEntries(current) && k !in OwnEntries(payload) ==>
        r.fields[k] == OwnEntries(current)[k]
    ensures !IsObjectValue(current) ==> r == payload
  {
    if IsObjectValue(current) then JObj(OwnEntries(current) + OwnEntries(payload)) else payload
  }

  /** The slice reducer. Whatever the action, only the fields of its
      footprint can change. */
  function Step(s: LaunchState, a: Action): (t: LaunchState)
    ensures AgreeOutside(s, t, Footprint(a))
  {
    match a
    case Pending(th) =>
      if HasCases(th) then s.(loading := true, error := None) else s
    case Fulfilled(th, p) =>
      (match th
       case FetchLaunchData => s.(loading := false, launchData := p)
       case FetchDetails => s.(loading := false, details := p)
       case FetchOtherDetails => s.(loading := false, details := MergeDetails(s.details, p))
       case FetchTopSearch => s.(loading := false, topSearchData := p)
       case _ => s)
    case Rejected(th, m) =>
      if HasCases(th) then s.(loading := false, error := ErrorMessage(m)) else s
    case ClearDetailsData => s.(details := JNull)
    case ClearSingleAlbumDetailsData => s.(singleAlbumDetails := JNull)
    case ClearAudioQueue => s.(audioQueue := [])
    case ClearRadioSongs => s.(radioSongs := JNull)
    case UpdateAudioQueue(q) => s.(audioQueue := q)
    case UpdateSongIndex(i) => s.(currentSongIndex := i)
    case UpdateIsRadio(b) => s.(isRadio := b)
    case UpdateCurrentlyPlayingTrack(track) => s.(currentlyPlayingTrack := track)
    case UpdatePlayNext(n) => s.(playNext := n)
    case Foreign(_) => s
  }

  /** The state after dispatching `acts` in order. */
  function Run(s: LaunchState, acts: seq<Action>): LaunchState
    decreases |acts|
  {
    if acts == [] then s else Run(Step(s, acts[0]), acts[1..])
  }
}

=== FILE: store_lemmas.dfy ===
/** Properties of the catalog store reducer: what each phase of a request
    lifecycle does, the details merge, and what a whole sequence of actions
    leaves behind. */
module StoreLemmas {
  import opened Wrappers
  import opened JsValue
  import opened Store

  // ---------------------------------------------------------------------
  // Single transitions.

  /** A handled `pending` sets `loading` and clears `error`; every data field
      is untouched. */
  lemma PendingEffect(s: LaunchState, th: Thunk)
    requires HasCases(th)
    ensures Step(s, Pending(th)).loading
    ensures Step(s, Pending(th)).error == None
    ensures AgreeOutside(s, Step(s, Pending(th)), {LoadingField, ErrorField})
  {
  }

  /** A handled `rejected` clears `loading` and stores the message, or
      `null` for an absent or empty one; every data field is untouched. */
  lemma RejectedEffect(s: LaunchState, th: Thunk, m: Option<string>)
    requires HasCases(th)
    ensures !Step(s, Rejected(th, m)).loading
    ensures Step(s, Rejected(th, m)).error == (if m.Some? && m.value != "" then m else None)
    ensures AgreeOutside(s, Step(s, Rejected(th, m)), {LoadingField, ErrorField})
  {
  }

  /** A replace-style `fulfilled` clears `loading` and stores the payload in
      its target field; `error` and every other field are untouched. */
  lemma FulfilledReplaceEffect(s: LaunchState, th: Thunk, p: Json)
    requires th == FetchLaunchData || th == FetchDetails || th == FetchTopSearch
    ensures !Step(s, Fulfilled(th, p)).loading
    ensures Project(Step(s, Fulfilled(th, p)), TargetField(th)) == JsonValue(p)
    ensures Step(s, Fulfilled(th, p)).error == s.error
    ensures AgreeOutside(s, Step(s, Fulfilled(th, p)), {LoadingField, TargetField(th)})
  {
  }

  /** `fetchOtherDetails.fulfilled` merges into object details and replaces
      anything else. */
  lemma FulfilledMergeEffect(s: LaunchState, p: Json)
    ensures !Step(s, Fulfilled(FetchOtherDetails, p)).loading
    ensures Step(s, Fulfilled(FetchOtherDetails, p)).details == MergeDetails(s.details, p)
    ensures !IsObjectValue(s.details) ==> Step(s, Fulfilled(FetchOtherDetails, p)).details == p
    ensures AgreeOutside(s, Step(s, Fulfilled(FetchOtherDetails, p)), {LoadingField, DetailsField})
  {
  }

  /** Each synchronous mutator writes exactly one field with the value the
      slice gives it. */
  lemma ClearEffects(s: LaunchState)
    ensures Step(s, ClearDetailsData) == s.(details := JNull)
    ensures Step(s, ClearSingleAlbumDetailsData) == s.(singleAlbumDetails := JNull)
    ensures Step(s, ClearAudioQueue) == s.(audioQueue := [])
    ensures Step(s, ClearRadioSongs) == s.(radioSongs := JNull)
  {
  }

  lemma UpdateEffects(s: LaunchState, q: seq<Json>, v: Json, b: bool)
    ensures Step(s, UpdateAudioQueue(q)) == s.(audioQueue := q)
    ensures Step(s, UpdateSongIndex(v)) == s.(currentSongIndex := v)
    ensures Step(s, UpdateIsRadio(b)) == s.(isRadio := b)
    ensures Step(s, UpdateCurrentlyPlayingTrack(v)) == s.(currentlyPlayingTrack := v)
    ensures Step(s, UpdatePlayNext(v)) == s.(playNext := v)
  {
  }

  /** The actions with an empty footprint are exactly the lifecycle actions
      of thunks without reducer cases and foreign actions; they leave the
      state identical. */
  lemma NoCaseNoChange(s: LaunchState, a: Action)
    ensures Footprint(a) == {} <==> ((IsLifecycle(a) && !HasCases(a.thunk)) || a.Foreign?)
    ensures Footprint(a) == {} ==> Step(s, a) == s
  {
  }

  /** Two actions in a row. */
  lemma RunPair(s: LaunchState, a: Action, b: Action)
    ensures Run(s, [a, b]) == Step(Step(s, a), b)
  {
    calc {
      Run(s, [a, b]);
      { assert [a, b][1..] == [b]; }
      Run(Step(s, a), [b]);
      { assert [b][1..] == []; }
      Run(Step(Step(s, a), b), []);
    }
  }

  // ---------------------------------------------------------------------
  // The details merge.

  function OtherDetailsArrived(p: Json): Action {
    Fulfilled(FetchOtherDetails, p)
  }

  predicate IsMerge(a: Action) {
    a.Fulfilled? && a.thunk == FetchOtherDetails
  }

  /** Receiving the same auxiliary payload twice equals receiving it once,
      unless the details were not an object and the payload is an array. */
  lemma MergeIdempotent(s: LaunchState, p: Json)
    requires IsObjectValue(s.details) || !p.JArr?
    ensures Step(Step(s, OtherDetailsArrived(p)), OtherDetailsArrived(p)) == Step(s, OtherDetailsArrived(p))
  {
    var once := Step(s, OtherDetailsArrived(p));
    if IsObjectValue(s.details) {
      MergeStep(s, p);
      var m := OwnEntries(s.details) + OwnEntries(p);
      assert once.details == JObj(m);
      MergeStep(once, p);
      assert m + OwnEntries(p) == m;
    } else {
      assert once == s.(loading := false, details := p);
      if IsObjectValue(p) {
        MergeStep(once, p);
        assert OwnEntries(p) + OwnEntries(p) == p.fields;
      }
    }
  }

  /** The exception: an array payload stored over non-object details turns
      into an index-keyed object when it arrives a second time. */
  lemma MergeNotIdempotentForArrayPayload(s: LaunchState, xs: seq<Json>)
    requires !IsObjectValue(s.details)
    ensures Step(Step(s, OtherDetailsArrived(JArr(xs))), OtherDetailsArrived(JArr(xs)))
         != Step(s, OtherDetailsArrived(JArr(xs)))
  {
    var once := Step(s, OtherDetailsArrived(JArr(xs)));
    assert once.details == JArr(xs);
    assert Step(once, OtherDetailsArrived(JArr(xs))).details.JObj?;
  }

  /** Merging a payload twice equals merging it once exactly when the
      details were an object or the payload is not an array. */
  lemma MergeIdempotentIff(s: LaunchState, p: Json)
    ensures Step(Step(s, OtherDetailsArrived(p)), OtherDetailsArrived(p)) == Step(s, OtherDetailsArrived(p))
        <==> (IsObjectValue(s.details) || !p.JArr?)
  {
    if IsObjectValue(s.details) || !p.JArr? {
      MergeIdempotent(s, p);
    } else {
      MergeNotIdempotentForArrayPayload(s, p.items);
    }
  }

  lemma UnionSwap(d: map<string, Json>, e1: map<string, Json>, e2: map<string, Json>)
    requires e1.Keys !! e2.Keys
    ensures d + e1 + e2 == d + e2 + e1
  {
    var l := d + e1 + e2;
    var r := d + e2 + e1;
    assert l.Keys == r.Keys;
    forall k | k in l
      ensures l[k] == r[k]
    {
    }
  }

  /** One auxiliary payload arriving over object details. */
  lemma MergeStep(s: LaunchState, p: Json)
    requires IsObjectValue(s.details)
    ensures Step(s, OtherDetailsArrived(p))
         == s.(loading := false, details := JObj(OwnEntries(s.details) + OwnEntries(p)))
  {
  }

  /** Two auxiliary payloads with disjoint keys can arrive in either order,
      when the details are an object, or when both payloads are objects
      (such as after `clearDetailsData`). */
  lemma MergeCommutes(s: LaunchState, p1: Json, p2: Json)
    requires IsObjectValue(s.details) || (p1.JObj? && p2.JObj?)
    requires OwnEntries(p1).Keys !! OwnEntries(p2).Keys
    ensures Run(s, [OtherDetailsArrived(p1), OtherDetailsArrived(p2)])
         == Run(s, [OtherDetailsArrived(p2), OtherDetailsArrived(p1)])
  {
    if !IsObjectValue(s.details) {
      MergeCommutesOverNonObject(s, p1, p2);
      return;
    }
    var d := OwnEntries(s.details);
    var e1 := OwnEntries(p1);
    var e2 := OwnEntries(p2);
    RunPair(s, OtherDetailsArrived(p1), OtherDetailsArrived(p2));
    RunPair(s, OtherDetailsArrived(p2), OtherDetailsArrived(p1));
    MergeStep(s, p1);
    MergeStep(s, p2);
    var s1 := Step(s, OtherDetailsArrived(p1));
    var s2 := Step(s, OtherDetailsArrived(p2));
    MergeStep(s1, p2);
    MergeStep(s2, p1);
    UnionSwap(d, e1, e2);
  }

  /** Over details that are not an object, the first object payload becomes
      the details and the second merges into it. */
  lemma MergeCommutesOverNonObject(s: LaunchState, p1: Json, p2: Json)
    requires !IsObjectValue(s.details) && p1.JObj? && p2.JObj?
    requires p1.fields.Keys !! p2.fields.Keys
    ensures Run(s, [OtherDetailsArrived(p1), OtherDetailsArrived(p2)])
         == Run(s, [OtherDetailsArrived(p2), OtherDetailsArrived(p1)])
  {
    RunPair(s, OtherDetailsArrived(p1), OtherDetailsArrived(p2));
    RunPair(s, OtherDetailsArrived(p2), OtherDetailsArrived(p1));
    var s1 := Step(s, OtherDetailsArrived(p1));
    var s2 := Step(s, OtherDetailsArrived(p2));
    assert s1 == s.(loading := false, details := p1);
    assert s2 == s.(loading := false, details := p2);
    MergeStep(s1, p2);
    MergeStep(s2, p1);
    UnionSwap(map[], p1.fields, p2.fields);
    assert map[] + p1.fields == p1.fields;
    assert map[] + p2.fields == p2.fields;
  }

  /** After the details are cleared, an auxiliary payload simply becomes the
      details. */
  lemma ClearThenMergeReplaces(s: LaunchState, p: Json)
    ensures Run(s, [ClearDetailsData, OtherDetailsArrived(p)]).details == p
  {
    RunPair(s, ClearDetailsData, OtherDetailsArrived(p));
  }

  /** Actions that do not replace or clear the details. */
  predicate KeepsDetails(a: Action) {
    a != ClearDetailsData && !(a.Fulfilled? && a.thunk == FetchDetails)
  }

  /** Merging is additive: while nothing replaces or clears object details,
      they stay an object and never lose a key. */
  lemma {:induction false} DetailsKeysOnlyGrow(s: LaunchState, acts: seq<Action>)
    requires IsObjectValue(s.details)
    requires forall i :: 0 <= i < |acts| ==> KeepsDetails(acts[i])
    ensures IsObjectValue(Run(s, acts).details)
    ensures OwnEntries(s.details).Keys <= OwnEntries(Run(s, acts).details).Keys
    decreases |acts|
  {
    if acts != [] {
      var next := Step(s, acts[0]);
      assert Project(next, DetailsField) == Project(s, DetailsField) || acts[0] == OtherDetailsArrived(acts[0].payload);
      DetailsKeysOnlyGrow(next, acts[1..]);
    }
  }

  // ---------------------------------------------------------------------
  // Sequences of actions.

  lemma {:induction false} RunAppend(s: LaunchState, acts: seq<Action>, a: Action)
    ensures Run(s, acts + [a]) == Step(Run(s, acts), a)
    decreases |acts|
  {
    if acts == [] {
      assert [] + [a] == [a];
      assert [a][1..] == [];
    } else {
      assert (acts + [a])[1..] == acts[1..] + [a];
      RunAppend(Step(s, acts[0]), acts[1..], a);
    }
  }

  /** The value each action writes into a field of its footprint, for every
      write that does not depend on the state (all but the details merge). */
  function WrittenValue(a: Action, f: Field): FieldValue
    requires f in Footprint(a)
    requires f == DetailsField ==> !IsMerge(a)
  {
    match a
    case Pending(_) => if f == LoadingField then FlagValue(true) else ErrorValue(None)
    case Fulfilled(_, p) => if f == LoadingField then FlagValue(false) else JsonValue(p)
    case Rejected(_, m) => if f == LoadingField then FlagValue(false) else ErrorValue(ErrorMessage(m))
    case ClearDetailsData => JsonValue(JNull)
    case ClearSingleAlbumDetailsData => JsonValue(JNull)
    case ClearAudioQueue => QueueValue([])
    case ClearRadioSongs => JsonValue(JNull)
    case UpdateAudioQueue(q) => QueueValue(q)
    case UpdateSongIndex(i) => JsonValue(i)
    case UpdateIsRadio(b) => FlagValue(b)
    case UpdateCurrentlyPlayingTrack(t) => JsonValue(t)
    case UpdatePlayNext(n) => JsonValue(n)
    case Foreign(_) => FlagValue(false)
  }

  /** The reducer agrees with the table of written values. */
  lemma StepWrites(s: LaunchState, a: Action, f: Field)
    requires f in Footprint(a)
    requires f == DetailsField ==> !IsMerge(a)
    ensures Project(Step(s, a), f) == WrittenValue(a, f)
  {
  }

  /** The value written into `f` by the last action of `acts` that writes
      it, if any. */
  function LastWrite(acts: seq<Action>, f: Field): Option<FieldValue>
    requires f != DetailsField
  {
    if acts == [] then None
    else if f in Footprint(acts[|acts| - 1]) then Some(WrittenValue(acts[|acts| - 1], f))
    else LastWrite(acts[..|acts| - 1], f)
  }

  /** Last write wins: after any sequence of actions every field other than
      the details holds what the last action writing it wrote, or its old
      value if none did. */
  lemma {:induction false} RunLastWrite(s: LaunchState, acts: seq<Action>, f: Field)
    requires f != DetailsField
    ensures Project(Run(s, acts), f) == (match LastWrite(acts, f)
                                         case None => Project(s, f)
                                         case Some(v) => v)
    decreases |acts|
  {
    if acts != [] {
      var init := acts[..|acts| - 1];
      var a := acts[|acts| - 1];
      assert acts == init + [a];
      RunAppend(s, init, a);
      RunLastWrite(s, init, f);
      if f in Footprint(a) {
        StepWrites(Run(s, init), a, f);
      }
    }
  }

  /** A fetch that was issued and then succeeded, from any state, leaves the
      store idle, without error, and holding the payload. */
  lemma PendingThenFulfilled(s: LaunchState, th: Thunk, p: Json)
    requires th == FetchLaunchData || th == FetchDetails || th == FetchTopSearch
    ensures !Run(s, [Pending(th), Fulfilled(th, p)]).loading
    ensures Run(s, [Pending(th), Fulfilled(th, p)]).error == None
    ensures Project(Run(s, [Pending(th), Fulfilled(th, p)]), TargetField(th)) == JsonValue(p)
    ensures AgreeOutside(s, Run(s, [Pending(th), Fulfilled(th, p)]), {LoadingField, ErrorField, TargetField(th)})
  {
    RunPair(s, Pending(th), Fulfilled(th, p));
  }

  /** A launch fetch that fails before anything was loaded leaves no launch
      data, an idle store and the failure's message. */
  lemma RejectedLaunchFromInitial(m: Option<string>)
    ensures Run(Initial, [Pending(FetchLaunchData), Rejected(FetchLaunchData, m)]).launchData == JNull
    ensures !Run(Initial, [Pending(FetchLaunchData), Rejected(FetchLaunchData, m)]).loading
    ensures Run(Initial, [Pending(FetchLaunchData), Rejected(FetchLaunchData, m)]).error == ErrorMessage(m)
  {
    RunPair(Initial, Pending(FetchLaunchData), Rejected(FetchLaunchData, m));
  }

  predicate HandledLifecycle(a: Action) {
    IsLifecycle(a) && HasCases(a.thunk)
  }

  /** Started from the initial state, the store is loading exactly when some
      handled fetch went pending and no handled lifecycle action followed
      it: the one shared flag reports only the latest request. */
  lemma {:induction false} LoadingIffLatestIsPending(acts: seq<Action>)
    ensures Run(Initial, acts).loading <==>
      exists i :: 0 <= i < |acts| && acts[i].Pending? && HasCases(acts[i].thunk) &&
        forall j :: i < j < |acts| ==> !HandledLifecycle(acts[j])
    decreases |acts|
  {
    if acts != [] {
      var init := acts[..|acts| - 1];
      var a := acts[|acts| - 1];
      assert acts == init + [a];
      RunAppend(Initial, init, a);
      LoadingIffLatestIsPending(init);
      if HandledLifecycle(a) {
        if a.Pending? {
          assert acts[|acts| - 1].Pending? && HasCases(acts[|acts| - 1].thunk);
        }
      } else {
        assert Project(Run(Initial, acts), LoadingField) == Project(Run(Initial, init), LoadingField);
        if Run(Initial, init).loading {
          var i :| 0 <= i < |init| && init[i].Pending? && HasCases(init[i].thunk) &&
            forall j :: i < j < |init| ==> !HandledLifecycle(init[j]);
          assert acts[i] == init[i];
        }
      }
    }
  }
}

=== FILE: text.dfy ===
/** Plain string helpers: decimal rendering of naturals, `Array.prototype.join`
    over strings, and its inverse `String.prototype.split` on one character. */
module Text {

  /** The decimal digit character for `d`. */
  function DigitChar(d: nat): (c: char)
    requires d < 10
    ensures '0' <= c <= '9'
    ensures c as int - '0' as int == d
  {
    ('0' as int + d) as char
  }

  predicate IsDigits(s: string) {
    forall i :: 0 <= i < |s| ==> '0' <= s[i] <= '9'
  }

  /** Shortest decimal rendering of `n`, as JavaScript's `String(n)` gives it
      for a non-negative integer (no sign, no leading zeros). */
  function NatToString(n: nat): (r: string)
    ensures |r| >= 1 && IsDigits(r)
    ensures r[0] == '0' ==> n == 0
    decreases n
  {
    if n < 10 then [DigitChar(n)] else NatToString(n / 10) + [DigitChar(n % 10)]
  }

  /** The value of a string of decimal digits; the partner of `NatToString`. */
  function ParseNat(s: string): nat
    requires IsDigits(s)
  {
    if s == [] then 0 else 10 * ParseNat(s[..|s| - 1]) + (s[|s| - 1] as int - '0' as int)
  }

  lemma {:induction false} ParseNatToString(n: nat)
    ensures ParseNat(NatToString(n)) == n
  {
    if n >= 10 {
      var r := NatToString(n);
      assert r[..|r| - 1] == NatToString(n / 10);
      ParseNatToString(n / 10);
    }
  }

  /** Distinct naturals have distinct decimal renderings, so index keys of an
      array never collide. */
  lemma NatToStringInjective()
    ensures forall i: nat, j: nat :: NatToString(i) == NatToString(j) ==> i == j
  {
    forall i: nat, j: nat | NatToString(i) == NatToString(j)
      ensures i == j
    {
      ParseNatToString(i);
      ParseNatToString(j);
    }
  }

  /** JavaScript's rendering of an integral number. */
  function IntToString(n: int): (r: string)
    ensures n >= 0 ==> r == NatToString(n)
    ensures n < 0 ==> r == "-" + NatToString(-n)
  {
    if n < 0 then "-" + NatToString(-n) else NatToString(n)
  }

  /** `parts.join(sep)` for an array of strings. */
  function Join(parts: seq<string>, sep: string): string
  {
    if |parts| == 0 then ""
    else if |parts| == 1 then parts[0]
    else parts[0] + sep + Join(parts[1..], sep)
  }

  /** Position of the first occurrence of `c` in `s`. */
  function IndexOf(s: string, c: char): (i: nat)
    requires c in s
    ensures i < |s| && s[i] == c
    ensures c !in s[..i]
  {
    if s[0] == c then 0
    else
      assert s == [s[0]] + s[1..];
      var j := IndexOf(s[1..], c);
      assert s[..j + 1] == [s[0]] + s[1..][..j];
      j + 1
  }

  /** `s.split(c)` for a one-character separator: the maximal pieces of `s`
      between occurrences of `c`, always at least one. */
  function Split(s: string, c: char): (parts: seq<string>)
    ensures |parts| >= 1
    decreases |s|
  {
    if c in s then
      var i := IndexOf(s, c);
      [s[..i]] + Split(s[i + 1..], c)
    else [s]
  }

  predicate NoneContains(parts: seq<string>, c: char) {
    forall i :: 0 <= i < |parts| ==> c !in parts[i]
  }

  /** The first separator in `a + [c] + b` is the one right after `a` when `a`
      holds none. */
  lemma {:induction false} IndexOfAfterPrefix(a: string, c: char, b: string)
    requires c !in a
    ensures IndexOf(a + [c] + b, c) == |a|
  {
    if a != [] {
      var s := a + [c] + b;
      assert s[0] == a[0];
      assert s[1..] == a[1..] + [c] + b;
      IndexOfAfterPrefix(a[1..], c, b);
    }
  }

  /** Splitting a join recovers the parts, provided no part contains the
      separator. */
  lemma {:induction false} SplitJoin(parts: seq<string>, c: char)
    requires |parts| >= 1
    requires NoneContains(parts, c)
    ensures Split(Join(parts, [c]), c) == parts
  {
    if |parts| > 1 {
      var rest := Join(parts[1..], [c]);
      var s := parts[0] + [c] + rest;
      assert Join(parts, [c]) == s;
      assert c !in parts[0];
      assert s[|parts[0]|] == c;
      IndexOfAfterPrefix(parts[0], c, rest);
      assert s[..|parts[0]|] == parts[0];
      assert s[|parts[0]| + 1..] == rest;
      assert Split(s, c) == [parts[0]] + Split(rest, c);
      SplitJoin(parts[1..], c);
      assert parts == [parts[0]] + parts[1..];
    }
  }

  /** Joining the pieces of a split gives back the string. */
  lemma {:induction false} JoinSplit(s: string, c: char)
    ensures Join(Split(s, c), [c]) == s
    ensures NoneContains(Split(s, c), c)
    decreases |s|
  {
    if c in s {
      var i := IndexOf(s, c);
      JoinSplit(s[i + 1..], c);
      assert s == s[..i] + [c] + s[i + 1..];
      var tail := Split(s[i + 1..], c);
      assert Split(s, c)[1..] == tail;
    }
  }
}

=== FILE: thunks.dfy ===
/** The bodies of the slice's asynchronous thunks, with the network as a
    parameter: `get` answers a URL with decoded data or a failure message.
    Each thunk's outcome becomes its `fulfilled` or `rejected` action. */
module Thunks {
  import opened Wrappers
  import opened JsValue
  import opened Client
  import opened Store
  import StoreLemmas

  /** What a GET of one URL yields: the decoded body, or a failure whose
      `message` may be absent. */
  datatype Response = Ok(data: Json) | Err(message: Option<string>)

  /** `fetchFromApi(endpoint)`: the language is resolved from the stored
      setting and the full URL is requested. */
  function FetchFromApi(endpoint: string, setting: StoredSetting, get: string -> Response): Response {
    get(RequestUrl(endpoint, ResolveLanguage(setting)))
  }

  /** A thunk whose result is the response data unchanged. */
  function RunRequest(r: Request, setting: StoredSetting, get: string -> Response): (out: Result<Json, Option<string>>)
    ensures FetchFromApi(Endpoint(r), setting, get).Ok? <==> out.Success?
    ensures out.Success? ==> out.value == FetchFromApi(Endpoint(r), setting, get).data
    ensures out.Failure? ==> out.error == FetchFromApi(Endpoint(r), setting, get).message
  {
    match FetchFromApi(Endpoint(r), setting, get)
    case Ok(data) => Success(data)
    case Err(m) => Failure(m)
  }

  // ---------------------------------------------------------------------
  // fetchSingleSongDetails

  /** Why the song thunk can reject: the request failed, or the response
      data was `undefined`/`null` so indexing it threw. */
  datatype SongFailure = SongRequestFailed(message: Option<string>) | NoSongTable

  /** `id || ""`. */
  function SongKey(id: Option<string>): string {
    match id
    case Some(s) => s
    case None => ""
  }

  /** `fetchSingleSongDetails`: the response is a table keyed by song id,
      and the thunk returns the entry for `id`, or for "" when no id was
      given. */
  function RunSingleSong(id: Option<string>, setting: StoredSetting, get: string -> Response): (out: Result<Json, SongFailure>)
    ensures var resp := FetchFromApi(Endpoint(SongRequest(id)), setting, get);
      && (resp.Err? ==> out == Failure(SongRequestFailed(resp.message)))
      && (resp.Ok? && (resp.data.JNull? || resp.data.JUndefined?) ==> out == Failure(NoSongTable))
      && (resp.Ok? && resp.data.JObj? && SongKey(id) in resp.data.fields ==>
            out == Success(resp.data.fields[SongKey(id)]))
      && (resp.Ok? && resp.data.JObj? && SongKey(id) !in resp.data.fields ==> out == Success(JUndefined))
  {
    match FetchFromApi(Endpoint(SongRequest(id)), setting, get)
    case Err(m) => Failure(SongRequestFailed(m))
    case Ok(data) =>
      match Read(data, SongKey(id))
      case None => Failure(NoSongTable)
      case Some(v) => Success(v)
  }

  /** An absent id and an empty id both look up the entry at "". */
  lemma SongKeyOfFalsyId()
    ensures SongKey(None) == "" && SongKey(Some("")) == ""
  {
  }

  // ---------------------------------------------------------------------
  // fetchAudioDetails

  /** One media request per input song, in input order. */
  function AudioEndpoints(songs: seq<SongDetails>): (eps: seq<string>)
    ensures |eps| == |songs|
    ensures forall i :: 0 <= i < |songs| ==> eps[i] == Endpoint(MediaRequest(songs[i].id, MediaKey(songs[i])))
  {
    if songs == [] then [] else [MediaEndpoint(songs[0])] + AudioEndpoints(songs[1..])
  }

  /** `Promise.all` over the responses: every datum in order when all
      succeed, otherwise one of the failures. */
  function Gather(rs: seq<Response>): (out: Result<seq<Json>, Option<string>>)
    ensures out.Success? <==> forall i :: 0 <= i < |rs| ==> rs[i].Ok?
    ensures out.Success? ==> |out.value| == |rs| && forall i :: 0 <= i < |rs| ==> out.value[i] == rs[i].data
    ensures out.Failure? ==> exists i :: 0 <= i < |rs| && rs[i].Err? && rs[i].message == out.error
  {
    if rs == [] then Success([])
    else
      match rs[0]
      case Err(m) => Failure(m)
      case Ok(d) =>
        match Gather(rs[1..])
        case Failure(m) => Failure(m)
        case Success(ds) => Success([d] + ds)
  }

  function Responses(eps: seq<string>, setting: StoredSetting, get: string -> Response): (rs: seq<Response>)
    ensures |rs| == |eps|
    ensures forall i :: 0 <= i < |eps| ==> rs[i] == FetchFromApi(eps[i], setting, get)
  {
    seq(|eps|, i requires 0 <= i < |eps| => FetchFromApi(eps[i], setting, get))
  }

  /** `fetchAudioDetails`: it succeeds exactly when every song's media
      request does, and then holds the i-th song's response at position i. */
  function RunAudioDetails(songs: seq<SongDetails>, setting: StoredSetting, get: string -> Response): (out: Result<seq<Json>, Option<string>>)
    ensures out.Success? <==>
      forall i :: 0 <= i < |songs| ==> FetchFromApi(MediaEndpoint(songs[i]), setting, get).Ok?
    ensures out.Success? ==>
      |out.value| == |songs| &&
      forall i :: 0 <= i < |songs| ==> out.value[i] == FetchFromApi(MediaEndpoint(songs[i]), setting, get).data
    ensures out.Failure? ==>
      exists i :: 0 <= i < |songs| && FetchFromApi(MediaEndpoint(songs[i]), setting, get).Err? &&
        FetchFromApi(MediaEndpoint(songs[i]), setting, get).message == out.error
  {
    var rs := Responses(AudioEndpoints(songs), setting, get);
    assert forall i :: 0 <= i < |songs| ==> rs[i] == FetchFromApi(MediaEndpoint(songs[i]), setting, get);
    Gather(rs)
  }

  // ---------------------------------------------------------------------
  // From outcome to actions.

  /** The action a settled thunk dispatches. */
  function Settle(th: Thunk, out: Result<Json, Option<string>>): Action {
    match out
    case Success(v) => Fulfilled(th, v)
    case Failure(m) => Rejected(th, m)
  }

  /** Dispatching a thunk: `pending`, then its settlement. */
  function Lifecycle(th: Thunk, out: Result<Json, Option<string>>): seq<Action> {
    [Pending(th), Settle(th, out)]
  }

  /** The request each handled thunk makes. */
  function RequestOf(th: Thunk, id: Option<string>, kind: Option<string>, title: Option<string>, source: Option<string>, data: Option<string>): Request
    requires HasCases(th)
  {
    match th
    case FetchLaunchData => LaunchRequest
    case FetchTopSearch => TopSearchRequest
    case FetchDetails => DetailsRequest(id, kind)
    case _ => OtherDetailsRequest(title, source, data)
  }

  /** A replace-style thunk's whole lifecycle: on success the target field
      holds the result and the store is idle without error; on failure the
      target is untouched and the error is the failure's message. */
  lemma ReplaceLifecycle(s: LaunchState, th: Thunk, out: Result<Json, Option<string>>)
    requires th == FetchLaunchData || th == FetchDetails || th == FetchTopSearch
    ensures !Run(s, Lifecycle(th, out)).loading
    ensures out.Success? ==>
      && Run(s, Lifecycle(th, out)).error == None
      && Project(Run(s, Lifecycle(th, out)), TargetField(th)) == JsonValue(out.value)
    ensures out.Failure? ==>
      && Run(s, Lifecycle(th, out)).error == ErrorMessage(out.error)
      && Project(Run(s, Lifecycle(th, out)), TargetField(th)) == Project(s, TargetField(th))
  {
    StoreLemmas.RunPair(s, Pending(th), Settle(th, out));
    var mid := Step(s, Pending(th));
    assert Project(mid, TargetField(th)) == Project(s, TargetField(th));
  }

  /** Fetching launch data, top searches or details end to end: the target
      field ends up holding exactly what the request URL answered, or the
      error holds the failure's message. */
  lemma ReplaceFetchEndToEnd(s: LaunchState, th: Thunk, id: Option<string>, kind: Option<string>,
                             setting: StoredSetting, get: string -> Response)
    requires th == FetchLaunchData || th == FetchDetails || th == FetchTopSearch
    ensures var r := RequestOf(th, id, kind, None, None, None);
      var resp := get(RequestUrl(Endpoint(r), ResolveLanguage(setting)));
      var t := Run(s, Lifecycle(th, RunRequest(r, setting, get)));
      && !t.loading
      && (resp.Ok? ==> t.error == None && Project(t, TargetField(th)) == JsonValue(resp.data))
      && (resp.Err? ==> t.error == ErrorMessage(resp.message) && Project(t, TargetField(th)) == Project(s, TargetField(th)))
  {
    var r := RequestOf(th, id, kind, None, None, None);
    ReplaceLifecycle(s, th, RunRequest(r, setting, get));
  }

  /** The song, audio, album, autocomplete and radio thunks have no reducer
      cases: whatever they return or throw, dispatching them leaves the
      store as it was. */
  lemma UnhandledThunksLeaveStore(s: LaunchState, th: Thunk, out: Result<Json, Option<string>>)
    requires !HasCases(th)
    ensures Run(s, Lifecycle(th, out)) == s
  {
    StoreLemmas.RunPair(s, Pending(th), Settle(th, out));
  }
}

=== FILE: uri.dfy ===
/** `encodeURIComponent` as the ECMAScript standard defines it: the
    characters A-Z a-z 0-9 - _ . ! ~ * ' ( ) stay as they are, and every
    other character is written as the UTF-8 octets of its code point
    (RFC 3629), each octet as `%` and two upper-case hex digits
    (percent-encoding as in section 2.1 of RFC 3986). The decoder here is
    the specification partner that inverts it. */
module Uri {
  import opened Wrappers

  type Byte = x: int | 0 <= x < 256

  /** Characters `encodeURIComponent` leaves as they are. */
  predicate Unreserved(c: char) {
    || ('A' <= c <= 'Z') || ('a' <= c <= 'z') || ('0' <= c <= '9')
    || c == '-' || c == '_' || c == '.' || c == '!' || c == '~'
    || c == '*' || c == '\'' || c == '(' || c == ')'
  }

  /** Characters that can appear in an encoded component. */
  predicate EncodedChar(c: char) {
    Unreserved(c) || c == '%'
  }

  /** The UTF-8 octets of one code point. */
  function Utf8(c: char): (bs: seq<Byte>)
    ensures 1 <= |bs| <= 4
    ensures (|bs| == 1) == (c as int < 0x80)
  {
    var cp := c as int;
    var q1 := cp / 64;
    var q2 := q1 / 64;
    var q3 := q2 / 64;
    if cp < 0x80 then [cp]
    else if cp < 0x800 then [0xC0 + q1, 0x80 + cp % 64]
    else if cp < 0x10000 then [0xE0 + q2, 0x80 + q1 % 64, 0x80 + cp % 64]
    else [0xF0 + q3, 0x80 + q2 % 64, 0x80 + q1 % 64, 0x80 + cp % 64]
  }

  /** The UTF-8 octets of a whole string. */
  function Utf8String(s: string): seq<Byte> {
    if s == [] then [] else Utf8(s[0]) + Utf8String(s[1..])
  }

  /** Upper-case hexadecimal digit. */
  function HexDigit(d: nat): (c: char)
    requires d < 16
    ensures Unreserved(c)
  {
    if d < 10 then ('0' as int + d) as char else ('A' as int + d - 10) as char
  }

  /** `%XY` for one octet. */
  function PercentTriplet(b: Byte): (t: string)
    ensures |t| == 3 && t[0] == '%'
  {
    ['%', HexDigit(b / 16), HexDigit(b % 16)]
  }

  function PercentBytes(bs: seq<Byte>): (r: string)
    ensures |r| == 3 * |bs|
    ensures forall i :: 0 <= i < |r| ==> EncodedChar(r[i])
  {
    if bs == [] then "" else PercentTriplet(bs[0]) + PercentBytes(bs[1..])
  }

  function EncodeChar(c: char): (r: string)
    ensures |r| >= 1
    ensures forall i :: 0 <= i < |r| ==> EncodedChar(r[i])
  {
    if Unreserved(c) then [c] else PercentBytes(Utf8(c))
  }

  /** `encodeURIComponent(s)`. The result only uses unreserved characters
      and `%`, so it never contains a separator such as `&`, `=`, `/`, `?`
      or `,`. */
  function EncodeUriComponent(s: string): (r: string)
    ensures |r| >= |s|
    ensures forall i :: 0 <= i < |r| ==> EncodedChar(r[i])
  {
    if s == [] then "" else EncodeChar(s[0]) + EncodeUriComponent(s[1..])
  }

  // ---------------------------------------------------------------------
  // The decoding partner.

  /** Value of a hexadecimal digit of either case. */
  function HexValue(c: char): (r: Option<nat>)
    ensures r.Some? ==> r.value < 16
  {
    if '0' <= c <= '9' then Some(c as int - '0' as int)
    else if 'A' <= c <= 'F' then Some(c as int - 'A' as int + 10)
    else if 'a' <= c <= 'f' then Some(c as int - 'a' as int + 10)
    else None
  }

  function PrependBytes(bs: seq<Byte>, r: Option<seq<Byte>>): Option<seq<Byte>> {
    match r
    case None => None
    case Some(rest) => Some(bs + rest)
  }

  /** The octets an encoded component stands for: `%XY` is one octet, any
      other ASCII character is its own octet, anything else is malformed. */
  function PercentDecode(s: string): Option<seq<Byte>>
    decreases |s|
  {
    if s == [] then Some([])
    else if s[0] == '%' then
      if |s| < 3 then None
      else
        match (HexValue(s[1]), HexValue(s[2]))
        case (Some(h), Some(l)) => PrependBytes([16 * h + l], PercentDecode(s[3..]))
        case _ => None
    else if s[0] as int < 0x80 then PrependBytes([s[0] as int], PercentDecode(s[1..]))
    else None
  }

  /** Number of octets announced by a UTF-8 lead octet, 0 if it is not one. */
  function LeadLength(b: Byte): nat {
    if b < 0x80 then 1
    else if 0xC0 <= b < 0xE0 then 2
    else if 0xE0 <= b < 0xF0 then 3
    else if 0xF0 <= b < 0xF8 then 4
    else 0
  }

  function LeadMark(n: nat): int {
    if n == 1 then 0 else if n == 2 then 0xC0 else if n == 3 then 0xE0 else 0xF0
  }

  /** Smallest code point that needs `n` octets (shorter forms are overlong). */
  function MinCodePoint(n: nat): int {
    if n == 1 then 0 else if n == 2 then 0x80 else if n == 3 then 0x800 else 0x10000
  }

  predicate IsScalarValue(cp: int) {
    0 <= cp < 0xD800 || 0xE000 <= cp < 0x110000
  }

  predicate Continuations(bs: seq<Byte>) {
    forall i :: 1 <= i < |bs| ==> 0x80 <= bs[i] < 0xC0
  }

  /** The code point spelled by a lead octet and its continuation octets. */
  function CodePoint(bs: seq<Byte>): int
    requires 1 <= |bs| <= 4
  {
    var lead := bs[0] as int - LeadMark(|bs|);
    if |bs| == 1 then lead
    else if |bs| == 2 then lead * 64 + Payload(bs[1])
    else if |bs| == 3 then lead * 4096 + Payload(bs[1]) * 64 + Payload(bs[2])
    else lead * 262144 + Payload(bs[1]) * 4096 + Payload(bs[2]) * 64 + Payload(bs[3])
  }

  /** The six value bits of a continuation octet. */
  function Payload(b: Byte): int {
    b as int - 0x80
  }

  function PrependChar(c: char, r: Option<string>): Option<string> {
    match r
    case None => None
    case Some(rest) => Some([c] + rest)
  }

  /** Strict UTF-8 decoding: no overlong forms, no surrogates. */
  function Utf8Decode(bs: seq<Byte>): Option<string>
    decreases |bs|
  {
    if bs == [] then Some([])
    else
      var n := LeadLength(bs[0]);
      if n == 0 || |bs| < n || !Continuations(bs[..n]) then None
      else
        var cp := CodePoint(bs[..n]);
        if cp < MinCodePoint(n) || !IsScalarValue(cp) then None
        else PrependChar(cp as char, Utf8Decode(bs[n..]))
  }

  /** `decodeURIComponent` restricted to ASCII input. */
  function DecodeUriComponent(s: string): Option<string> {
    match PercentDecode(s)
    case None => None
    case Some(bs) => Utf8Decode(bs)
  }

  // ---------------------------------------------------------------------
  // Properties.

  lemma HexRoundTrip(d: nat)
    requires d < 16
    ensures HexValue(HexDigit(d)) == Some(d)
  {
  }

  /** Decoding a run of `%XY` triplets yields their octets. */
  lemma {:induction false} PercentBytesDecode(bs: seq<Byte>, rest: string)
    ensures PercentDecode(PercentBytes(bs) + rest) == PrependBytes(bs, PercentDecode(rest))
  {
    if bs != [] {
      var b := bs[0];
      var s := PercentBytes(bs) + rest;
      assert s == PercentTriplet(b) + (PercentBytes(bs[1..]) + rest);
      HexRoundTrip(b / 16);
      HexRoundTrip(b % 16);
      assert s[0] == '%' && s[1] == HexDigit(b / 16) && s[2] == HexDigit(b % 16);
      assert 16 * (b / 16) + b % 16 == b;
      assert s[3..] == PercentBytes(bs[1..]) + rest;
      PercentBytesDecode(bs[1..], rest);
      assert PercentDecode(s) == PrependBytes([b], PercentDecode(s[3..]));
      assert bs == [b] + bs[1..];
      match PercentDecode(rest)
      case None =>
      case Some(r) => assert [b] + (bs[1..] + r) == bs + r;
    } else {
      assert PercentBytes(bs) + rest == rest;
      match PercentDecode(rest)
      case None =>
      case Some(r) => assert bs + r == r;
    }
  }

  /** Percent-decoding an encoded string gives the UTF-8 octets of the
      original. */
  lemma {:induction false} EncodeDecodeBytes(s: string)
    ensures PercentDecode(EncodeUriComponent(s)) == Some(Utf8String(s))
  {
    if s != [] {
      var c := s[0];
      var tail := EncodeUriComponent(s[1..]);
      EncodeDecodeBytes(s[1..]);
      if Unreserved(c) {
        var e := [c] + tail;
        assert e[1..] == tail;
        assert Utf8(c) == [c as int];
      } else {
        PercentBytesDecode(Utf8(c), tail);
      }
    }
  }

  /** The octets `Utf8` produces form one well-formed UTF-8 sequence that
      spells the same code point. */
  lemma Utf8Facts(c: char)
    ensures LeadLength(Utf8(c)[0]) == |Utf8(c)|
    ensures Continuations(Utf8(c))
    ensures CodePoint(Utf8(c)) == c as int
    ensures c as int >= MinCodePoint(|Utf8(c)|)
  {
    var cp := c as int;
    var q1 := cp / 64;
    var q2 := q1 / 64;
    var q3 := q2 / 64;
    assert cp == 64 * q1 + cp % 64;
    assert q1 == 64 * q2 + q1 % 64;
    assert q2 == 64 * q3 + q2 % 64;
  }

  lemma Utf8DecodeChar(c: char, rest: seq<Byte>)
    ensures Utf8Decode(Utf8(c) + rest) == PrependChar(c, Utf8Decode(rest))
  {
    var bs := Utf8(c) + rest;
    var n := |Utf8(c)|;
    Utf8Facts(c);
    assert bs[..n] == Utf8(c);
    assert bs[n..] == rest;
  }

  lemma {:induction false} Utf8RoundTrip(s: string)
    ensures Utf8Decode(Utf8String(s)) == Some(s)
  {
    if s != [] {
      Utf8DecodeChar(s[0], Utf8String(s[1..]));
      Utf8RoundTrip(s[1..]);
      assert s == [s[0]] + s[1..];
    }
  }

  /** Decoding undoes encoding, for every string. */
  lemma EncodeDecode(s: string)
    ensures DecodeUriComponent(EncodeUriComponent(s)) == Some(s)
  {
    EncodeDecodeBytes(s);
    Utf8RoundTrip(s);
  }

  /** Encoding distributes over concatenation. */
  lemma {:induction false} EncodeAppend(a: string, b: string)
    ensures EncodeUriComponent(a + b) == EncodeUriComponent(a) + EncodeUriComponent(b)
  {
    if a != [] {
      assert (a + b)[0] == a[0];
      assert (a + b)[1..] == a[1..] + b;
      EncodeAppend(a[1..], b);
      calc {
        EncodeUriComponent(a + b);
        EncodeChar(a[0]) + EncodeUriComponent(a[1..] + b);
        EncodeChar(a[0]) + (EncodeUriComponent(a[1..]) + EncodeUriComponent(b));
        (EncodeChar(a[0]) + EncodeUriComponent(a[1..])) + EncodeUriComponent(b);
      }
    } else {
      assert a + b == b;
    }
  }

  /** A string of unreserved characters is its own encoding. */
  lemma {:induction false} EncodeUnreserved(s: string)
    requires forall i :: 0 <= i < |s| ==> Unreserved(s[i])
    ensures EncodeUriComponent(s) == s
  {
    if s != [] {
      EncodeUnreserved(s[1..]);
      assert s == [s[0]] + s[1..];
    }
  }

  /** A comma, as in a comma-separated language list, becomes `%2C`. */
  lemma EncodeComma()
    ensures EncodeUriComponent(",") == "%2C"
  {
    assert Utf8(',') == [44];
    assert PercentBytes([44]) == PercentTriplet(44) + PercentBytes([]);
  }
}

=== FILE: wrappers.dfy ===
/** Optional values and fallible results, shared by every module of the model. */
module Wrappers {

  /** A value that may be absent: an optional parameter, a missing entry. */
  datatype Option<+T> = None | Some(value: T)

  /** The outcome of an operation that can fail with an error of type `E`. */
  datatype Result<+R, +E> = Success(value: R) | Failure(error: E)
}
